=== FILE: README.md ===
# Netrunner card and deck model in Dafny

This project models the card and deck core of a Netrunner deck checker (`card.py`):

- **`CardBase` record.** A card's attributes. Every attribute is optional. A faux record is the attribute-less placeholder.
- **`Card` wrapper.** A record plus a face-up flag. A face-down card shows only a faux record.
- **`CardContainer`.** A working list of cards plus a title-sorted snapshot. The snapshot is taken at construction. `choice` draws cards and `shuffle` reorders them. Neither touches the snapshot.
- **`Deck`.** A container with an identity card and the limits derived from it. Legality is the AND of an ordered list of validation rules over the snapshot.

Everything is a pure function over immutable datatypes. Exceptions become `Result` values. The random generator behind `choice` and `shuffle` becomes a parameter: the sampled positions, or the permutation.

Modules, one per component:

| file | module | models |
|---|---|---|
| wrappers.dfy | `Wrappers` | `Option`, `Result`, the error kinds |
| card.dfy | `Cards` | `CardBase` and `Card` |
| title_order.dfy | `TitleOrder` | `sorted(..., key=title)` under Python 2 ordering |
| selection.dfy | `Selection` | drawing by position (`random.sample` and `list.remove`) |
| container.dfy | `Containers` | `CardContainer` construction, `choice`, `shuffle` |
| listing.dfy | `Listing` | `pretty_print` |
| deck.dfy | `Decks` | `Deck`, `find_identity`, the `validate_*` rules, `validate` |

Three behaviours of `card.py` a reader may not expect, which the model keeps:

- **Two identity cards.** `find_identity` returns the first identity in the snapshot and does not fail. The deck is built, and `validate_has_only_one_identity` makes it illegal (`Decks.TwoIdentitiesBuildButFail`).
- **Truthy input that cannot be iterated.** `CardContainer` silently gives an empty container instead of failing.
- **`None` limits.** Python 2 compares `None` below every number. So a missing `minimumdecksize` passes the deck-size rule, and a missing `influencelimit` fails the influence rule.

Influence is charged by side, not by faction. So a deck that passes the composition rule never owes influence (`Decks.ComposedDeckOwesNoInfluence`). The model keeps the side comparison the code makes.

## Model

| member | source | states |
|---|---|---|
| Cards.MakeRecord | card.py:40-63 | a falsy input or empty mapping gives the faux record; a non-empty mapping gives a real record whose title, type, side, cost, influence limit and minimum deck size are the mapping's values for those keys; a record input gives that record back; a card or any other shape fails with UnrecognizedFormat |
| Cards.MakeRecordRoundTrip | card.py:62-63 | writing a real record's attributes to a mapping and building a record from it gives the same record back |
| Cards.Costs | card.py:87-95 | the cost is nonzero exactly when the card has a nonzero cost, the target is an identity, the card is not, and the card is of neither the identity's side nor the neutral side; a nonzero cost is the card's own cost and is non-negative when that cost is |
| Cards.SameSideCostsNothing | card.py:93-94 | a card of the identity's side, or a neutral card, costs nothing |
| Cards.EqAsWrittenIdentifiesAll | card.py:97-103 | the written equality calls any two records equal |
| Cards.EqAsWrittenCounterexample | card.py:102-103 | Diesel and Sure Gamble differ yet compare equal as written, and unequal under the intended equality |
| Cards.EqIsEquivalence | card.py:97-103 | the intended record equality is reflexive, symmetric and transitive |
| Cards.EqAgreesWhereWrittenIsRight | card.py:98-101 | against a non-record, or between two faux records, the intended equality agrees with the written one, and a non-record is never equal |
| Cards.EqRealRecords | card.py:100-103 | a real record equals another exactly when the other is real and every attribute matches; a real record never equals a faux one |
| Cards.MakeCard | card.py:111-118 | a card takes the given facing; a record input becomes the card's record unchanged, a card input lends its record, and a non-empty mapping gives the record built from it; a falsy input (absent or an empty mapping) fails with MissingRecord and a non-mapping with UnrecognizedFormat |
| Cards.MakeCardWrapsMakeRecord | card.py:111-118 | for every input except a card, a built card holds exactly the record the record constructor gives, and the card constructor fails with the record constructor's error whenever that one fails |
| Cards.Flip | card.py:130-131 | flipping keeps the record and inverts the facing |
| Cards.FlipInvolution | card.py:130-131 | flipping twice restores the card |
| Cards.FlipAsWrittenKeepsFaceUp | card.py:111-131 | as written, a card built face up is still face up after `flip`, because `~True` is -2, which is truthy |
| Cards.FlipAsWrittenFromFaceDown | card.py:130-131 | as written, from face down, the facing alternates: after k flips the card is face up exactly when k is odd |
| Cards.View | card.py:133-136 | a face-down card shows the attribute-less placeholder record `CardBase()`; a face-up card shows its own record |
| Cards.HiddenViewsIndistinguishable | card.py:133-135 | any two face-down cards show equal views, so a hidden card's view reveals nothing about its record |
| Cards.FreshCardHiddenThenRevealed | card.py:111-136 | a newly built card shows a faux record; after one flip it shows its record |
| TitleOrder.Insert | card.py:178 | inserting into a title-sorted list keeps it sorted and adds exactly the one card |
| TitleOrder.Sort | card.py:178 | the snapshot is in title order, with None first, and holds exactly the cards it was built from |
| TitleOrder.SortIsStable | card.py:178 | for every title, the snapshot lists the cards with that title in their input order |
| Selection.DrawPartition | card.py:205-207 | the drawn cards plus the remaining cards are exactly the original cards, and the remaining list is shorter by the number drawn |
| Selection.WithoutIsSubsequence | card.py:205-207 | removing the drawn cards one by one leaves the other cards in their original relative order |
| Selection.PermutationKeepsContents | card.py:210-211 | reordering by a permutation of positions keeps the same multiset of cards |
| Containers.MakeCards | card.py:170-176 | every source becomes a face-down card, in input order, or the first failing source's error is raised |
| Containers.MakeContainer | card.py:158-178 | a list of n sources gives n cards in input order and a snapshot that is their stable title sort; a falsy or non-iterable input gives an empty container; since every element is converted before sorting, any unrecognized element fails with UnrecognizedFormat; otherwise the first element in list order whose title cannot be read fails the sort, with MissingRecord for a falsy element and MissingAttribute for a faux record |
| Containers.TitleError | card.py:142-153 | reading the sort key succeeds exactly for a card that wraps a real record; a falsy source gives MissingRecord, and a faux record, given directly or through another card, MissingAttribute |
| Containers.FirstTitleError | card.py:178 | the sort reports the title error of the first element in list order that has one, and none when every title reads |
| Containers.ErrorOrder | card.py:170-178 | an unrecognized element fails the construction even after a falsy one; a faux record before a falsy element fails with MissingAttribute, and the reverse order with MissingRecord; a card wrapping a faux record fails with MissingAttribute |
| Containers.MakeContainerWf | card.py:177-178 | a new container's snapshot is sorted and holds every card of the working list |
| Containers.Choice | card.py:200-208 | with 0 <= n <= size it returns the n cards at the sampled positions, the size drops by n, drawn plus remaining cards are the original cards, the remaining list is the working list with exactly the sampled positions removed, in their relative order, and the snapshot is unchanged; any other n fails |
| Containers.ChoiceKeepsWf | card.py:200-208 | after a draw, the working list still holds only snapshot cards |
| Containers.Shuffle | card.py:210-211 | shuffling keeps the size, the multiset of cards and the snapshot, and puts the cards in the chosen order |
| Containers.ShuffleKeepsWf | card.py:210-211 | after a shuffle, the working list still holds only snapshot cards |
| Containers.ContainerFromDrawnCards | card.py:113-118 | a container built from n drawn cards holds n face-down cards with the same records |
| Listing.Runs | card.py:188 | grouping yields non-empty runs, no two neighbouring runs share a title, and the first run starts with the first title |
| Listing.RunsRoundTrip | card.py:188-191 | writing each run out count times gives back the grouped titles |
| Listing.RunsCountEverything | card.py:190-191 | the run counts add up to the snapshot size |
| Listing.RunsUnique | card.py:188 | any grouping into non-empty runs with distinct neighbouring titles that writes out to the titles is the one `groupby` produces |
| Listing.Decimal | card.py:191 | a count prints as a non-empty string of decimal digits with no leading zero, except the count 0 itself |
| Listing.DecimalRoundTrip | card.py:191 | reading the printed digits back gives the count |
| Listing.PrettyPrint | card.py:186-192 | the listing is the concatenation, in snapshot order, of one `<count>x <title>` line per maximal run of equal titles (the runs `groupby` forms, pinned by RunsUnique), and is empty exactly when the snapshot is |
| Listing.PrintedCountsCoverSnapshot | card.py:186-192 | reading each line's count back from its leading digits and adding them up gives the snapshot size |
| Listing.ListingIgnoresWorkingList | card.py:186-188 | the listing depends only on the snapshot, so draws and shuffles do not change it |
| Listing.SureGambleDieselListing | card.py:186-192 | two Sure Gamble and one Diesel list as `1x Diesel` then `2x Sure Gamble` |
| Decks.FindIdentity | card.py:249-254 | it returns the first identity card of the snapshot, and fails with NoIdentityFound exactly when there is none |
| Decks.AllHold | card.py:256-263 | checking a rule list is true exactly when every rule in it holds |
| Decks.Failing | card.py:265-284 | the reported failures are exactly the rules of the list that do not hold, and they come in the rules' declared order |
| Decks.FailuresReportedInOrder | card.py:265-284 | for the deck's rule list, failures are reported in declaration order: deck size, agenda points, single identity, composition, influence |
| Decks.Validate | card.py:256-284 | a deck is legal exactly when the deck-size, agenda-points, single-identity, composition and influence rules all pass |
| Decks.DeckSizeOk | card.py:265-266 | a missing minimum passes; a snapshot of at least the minimum size passes, and one card short of it fails |
| Decks.AgendaPointsOk | card.py:268-269 | the agenda-points rule always passes |
| Decks.OnlyOneIdentityOk | card.py:271-273 | passes exactly when one card of the snapshot is an identity and every other card is not |
| Decks.CountIdentitiesOneIff | card.py:271-273 | counting one identity and locating a unique identity card are the same condition, in both directions |
| Decks.CompositionOk | card.py:275-278 | passes exactly when the snapshot is non-empty and all its cards share one side code |
| Decks.InfluenceOk | card.py:280-284 | a missing limit fails; a total equal to the limit passes and one over it fails |
| Decks.ValidateIff | card.py:265-284 | a deck is legal exactly when it meets the deck-size, single-identity, composition and influence rules |
| Decks.ValidateIffNothingFails | card.py:256-263 | a deck is legal exactly when no rule is reported failing |
| Decks.MakeDeck | card.py:219-225 | construction fails exactly when the container fails or has no identity; otherwise the identity is the first identity card of the snapshot, the limits and side come from it, and `valid` is the rule conjunction |
| Decks.TwoIdentitiesBuildButFail | card.py:219-225 | input whose snapshot holds two identities still builds a deck, and that deck breaks the single-identity rule and is marked invalid |
| Decks.LegalDeckHasOneIdentity | card.py:271-273 | in a legal deck, every identity card of the snapshot is the deck's identity |
| Decks.CompositionIff | card.py:275-278 | there is exactly one side code exactly when the snapshot is non-empty and all its cards share a side |
| Decks.MixedOrEmptyDeckIllegal | card.py:275-278 | an empty deck, or one mixing sides, fails composition and is illegal |
| Decks.UndersizedDeckIllegal | card.py:265-266 | a deck smaller than its identity's minimum fails the size rule and is illegal |
| Decks.InfluenceLimitBoundary | card.py:280-284 | with a limit, a total at or under it passes influence, and a total of the limit plus one, or anything over, makes the deck illegal |
| Decks.InfluenceTotalOfOne | card.py:282-283 | one card contributes its own cost to the total exactly when it is charged, and nothing otherwise |
| Decks.InfluenceTotalAppend | card.py:282-283 | the total over two lists laid end to end is the sum of their totals, as `sum` over the list comprehension is |
| Decks.InfluenceTotalNonNegative | card.py:282-283 | with non-negative costs, the total influence is non-negative |
| Decks.SameSideCostsNoInfluence | card.py:282-283 | cards that all share the identity's side add up to no influence |
| Decks.ComposedDeckOwesNoInfluence | card.py:275-284 | if a deck holds its identity and passes composition, its influence total is 0 |
| Decks.ValidateAsWrittenAlwaysTrue | card.py:256-263 | as written, `validate` finds no rule among the instance attributes and reports every deck valid |
| Decks.ValidateAsWrittenCounterexample | card.py:256-263 | a one-card deck whose identity needs 45 cards passes the written check but is illegal |
| Decks.ScanOfRulesIsValidate | card.py:259-261 | scanning the rule methods' names would give the intended conjunction |

## Left out

- `utils.py` `parse_json` and the JSON mixin: file and JSON I/O. Inputs arrive as parsed sources; a file path or JSON text is not an input form.
- The random generator: `choice` takes the sampled positions, and `shuffle` takes the permutation. The model does not say how likely any outcome is.
- `Card.__getattr__`: attribute forwarding is modelled as reading the wrapped record directly. As written, the forwarding returns `costs` as an unbound function, so `card.costs(identity)` on a `Card` would raise a `TypeError`. The model calls the record's `costs` as intended.
- `__unicode__` and `__repr__` of all classes, including the deck's identity header: display only.
- Record attributes the logic never reads (code, type, subtype, text, faction, flavor, illustrator, set, uniqueness, limited, cycle): not modelled. `Cards.EqRealRecords` compares the modelled attributes only.
- Cards.MakeRecord: a JSON value of the wrong type for an attribute (a number as a title, say) reads as absent. Python would store it as is.
- Cards.MakeRecord: `CardBase(record)` models the intended copy. The source's `self = copy.deepcopy(card)` rebinds a local variable, which leaves a non-faux record with no attributes.
- `choice()` and `Card(...)` without a facing use the defaults `num=1` and `faceup=False`; the model has no default arguments, so these are `Containers.Choice` with n = 1 and `Cards.MakeCard` with `false`.
- Containers.MakeContainer: a card without a record makes the title read in `Card.__getattr__` recurse until Python raises a recursion error; the model reports it as MissingRecord.
- Cards.MakeCard: a falsy input fails at once with MissingRecord. The source builds a card without a record, which fails at the first attribute access.
- Containers.MakeContainer: `CardContainer(container)` models a copy of both lists. The source copies only the snapshot and leaves the working list unset.
- `is_runner`/`is_corp` are defined (`Cards.IsRunner`, `Cards.IsCorp`) but nothing in the core uses them.
- `Deck.__init__` runs `validate` before the identity is set. Running the rules in that order would fail on the missing identity. The model finds the identity first (see Findings).
- The shuffle test in `test_card.py` expects the order to change "with very high probability". That is a probabilistic claim, and the model does not state it.
- `Player`, `Corporation` and `Runner` in `test_player.py` are not implemented in `card.py`. They and `test_helper.py` are not part of this model.

## Findings

| source | as written | input that shows it | evidently intended | confidence | as-written member | corrected member |
|---|---|---|---|---|---|---|
| card.py:130-131 | `flip` applies bitwise `~` to the facing flag | a card built with `faceup=True`: `~True == -2` is truthy, so the card stays face up | boolean negation | high, not executed | Cards.FlipAsWrittenKeepsFaceUp | Cards.FlipInvolution |
| card.py:102-103 | `__eq__` zips the two field-name tuples, not the field values | Diesel and Sure Gamble records compare equal | compare attribute values | high, not executed | Cards.EqAsWrittenCounterexample | Cards.EqRealRecords |
| card.py:256-263 | `validate` scans instance attributes, which hold no `validate_*` rules | a one-card deck whose identity needs 45 cards is reported valid | AND of every `validate_*` rule | high, not executed | Decks.ValidateAsWrittenCounterexample | Decks.ValidateIff |

=== FILE: card.dfy ===
/** Card records (CardBase) and the face-up/face-down wrapper (Card). */
module Cards {
  import opened Wrappers

  /** A parsed JSON scalar the record reads. */
  datatype Value = Text(s: string) | Number(n: int)

  /**
   * A card's game attributes. Only the attributes the deck logic reads are
   * kept; every one is optional, as a missing key reads as `None`. A faux
   * record is the attribute-less placeholder shown for a hidden card.
   */
  datatype Record = Record(
    title: Option<string>,
    typeCode: Option<string>,
    sideCode: Option<string>,
    cost: Option<int>,
    influenceLimit: Option<int>,
    minimumDeckSize: Option<int>,
    faux: bool)

  /** What a record or card can be built from. `Absent` is any falsy value. */
  datatype Source =
    | Absent
    | Mapping(entries: map<string, Value>)
    | OfRecord(record: Record)
    | OfCard(card: Card)
    | Unrecognized

  /** The attribute-less record of a hidden card. */
  const Faux: Record := Record(None, None, None, None, None, None, true)

  /** The attribute names of the record, in declaration order. */
  const FieldNames: seq<string> := [
    "code", "title", "type", "type_code", "subtype", "subtype_code", "text",
    "baselink", "faction", "faction_code", "faction_letter", "flavor",
    "illustrator", "influencelimit", "minimumdecksize", "setname", "set_code",
    "side", "side_code", "uniqueness", "limited", "cyclenumber", "cost"]

  function TextField(m: map<string, Value>, key: string): Option<string>
  {
    if key in m && m[key].Text? then Some(m[key].s) else None
  }

  function NumberField(m: map<string, Value>, key: string): Option<int>
  {
    if key in m && m[key].Number? then Some(m[key].n) else None
  }

  /** Reads every modelled attribute from a mapping, absent keys as `None`. */
  function FromMapping(m: map<string, Value>): Record
  {
    Record(
      TextField(m, "title"), TextField(m, "type_code"), TextField(m, "side_code"),
      NumberField(m, "cost"), NumberField(m, "influencelimit"),
      NumberField(m, "minimumdecksize"), false)
  }

  /** The mapping that lists exactly the present attributes of a record. */
  function ToMapping(r: Record): map<string, Value>
  {
    var m0: map<string, Value> := map[];
    var m1 := if r.title.Some? then m0["title" := Text(r.title.value)] else m0;
    var m2 := if r.typeCode.Some? then m1["type_code" := Text(r.typeCode.value)] else m1;
    var m3 := if r.sideCode.Some? then m2["side_code" := Text(r.sideCode.value)] else m2;
    var m4 := if r.cost.Some? then m3["cost" := Number(r.cost.value)] else m3;
    var m5 := if r.influenceLimit.Some? then m4["influencelimit" := Number(r.influenceLimit.value)] else m4;
    if r.minimumDeckSize.Some? then m5["minimumdecksize" := Number(r.minimumDeckSize.value)] else m5
  }

  predicate HasSomeAttribute(r: Record)
  {
    r.title.Some? || r.typeCode.Some? || r.sideCode.Some? || r.cost.Some?
    || r.influenceLimit.Some? || r.minimumDeckSize.Some?
  }

  /**
   * CardBase construction: a falsy input gives the faux record, a mapping
   * gives its attributes, anything else is an unrecognized format. A record
   * is copied (the source's `self = copy.deepcopy(card)` rebinds a local
   * and copies nothing; the intended copy is modelled).
   */
  function MakeRecord(src: Source): (r: Result<Record>)
    ensures r.Err? <==> src.OfCard? || src.Unrecognized?
    ensures r.Err? ==> r.error == UnrecognizedFormat
    ensures r.Ok? && r.value.faux <==> src.Absent? || (src.Mapping? && src.entries == map[])
                                       || (src.OfRecord? && src.record.faux)
    ensures src.Mapping? && src.entries != map[] ==>
              && r.Ok?
              && r.value.title == TextField(src.entries, "title")
              && r.value.typeCode == TextField(src.entries, "type_code")
              && r.value.sideCode == TextField(src.entries, "side_code")
              && r.value.cost == NumberField(src.entries, "cost")
              && r.value.influenceLimit == NumberField(src.entries, "influencelimit")
              && r.value.minimumDeckSize == NumberField(src.entries, "minimumdecksize")
    ensures src.OfRecord? ==> r == Ok(src.record)
    ensures src.Absent? ==> r == Ok(Faux)
    ensures src.Mapping? && src.entries == map[] ==> r == Ok(Faux)
  {
    match src
    case Absent => Ok(Faux)
    case Mapping(m) => if m == map[] then Ok(Faux) else Ok(FromMapping(m))
    case OfRecord(rec) => Ok(rec)
    case OfCard(_) => Err(UnrecognizedFormat)
    case Unrecognized => Err(UnrecognizedFormat)
  }

  /** Writing a record's attributes to a mapping and reading them back gives the record. */
  lemma MakeRecordRoundTrip(r: Record)
    requires !r.faux && HasSomeAttribute(r)
    ensures MakeRecord(Mapping(ToMapping(r))) == Ok(r)
  {
    var m := ToMapping(r);
    assert m != map[] by {
      if r.minimumDeckSize.Some? {
        assert "minimumdecksize" in m;
      } else if r.influenceLimit.Some? {
        assert "influencelimit" in m;
      } else if r.cost.Some? {
        assert "cost" in m;
      } else if r.sideCode.Some? {
        assert "side_code" in m;
      } else if r.typeCode.Some? {
        assert "type_code" in m;
      } else {
        assert "title" in m;
      }
    }
  }

  predicate IsIdentity(r: Record)
  {
    r.typeCode == Some("identity")
  }

  predicate IsRunner(r: Record)
  {
    r.sideCode == Some("runner")
  }

  predicate IsCorp(r: Record)
  {
    r.sideCode == Some("corp")
  }

  /**
   * A card is charged against an identity when it has a nonzero cost, the
   * target is an identity, the card is not, and the card belongs to neither
   * the identity's side nor the neutral side.
   */
  predicate Charged(card: Record, identity: Record)
  {
    && card.cost.Some? && card.cost.value != 0
    && IsIdentity(identity) && !IsIdentity(card)
    && card.sideCode != identity.sideCode
    && card.sideCode != Some("neutral")
  }

  /** The influence cost of a card to a given identity (CardBase.costs). */
  function Costs(card: Record, identity: Record): (r: int)
    ensures r != 0 <==> Charged(card, identity)
    ensures r != 0 ==> r == card.cost.value
    ensures card.cost.Some? && card.cost.value >= 0 ==> r >= 0
    ensures card.cost.None? ==> r == 0
  {
    if card.cost.None? || card.cost.value == 0 then 0
    else if !IsIdentity(identity) || IsIdentity(card) then 0
    else if card.sideCode == identity.sideCode || card.sideCode == Some("neutral") then 0
    else card.cost.value
  }

  /** A card of the identity's own side, or a neutral card, never costs influence. */
  lemma SameSideCostsNothing(card: Record, identity: Record)
    requires card.sideCode == identity.sideCode || card.sideCode == Some("neutral")
    ensures Costs(card, identity) == 0
  {
  }

  /** The right-hand side of an equality test: a record or any other object. */
  datatype Operand = AsRecord(record: Record) | NotRecord

  /**
   * CardBase.__eq__ as written: after the faux check it compares the field
   * NAME tuples of the two records with each other, which always agree.
   */
  function EqAsWritten(a: Record, b: Operand): bool
  {
    match b
    case NotRecord => false
    case AsRecord(other) =>
      (a.faux && other.faux)
      || (forall i :: 0 <= i < |FieldNames| ==> FieldNames[i] == FieldNames[i])
  }

  /** As written, any two records compare equal, whatever their attributes. */
  lemma EqAsWrittenIdentifiesAll(a: Record, b: Record)
    ensures EqAsWritten(a, AsRecord(b))
  {
  }

  /** Two records with different titles that the written equality calls equal. */
  lemma EqAsWrittenCounterexample()
    ensures var a := Record(Some("Diesel"), None, Some("runner"), Some(0), None, None, false);
            var b := Record(Some("Sure Gamble"), None, Some("runner"), Some(5), None, None, false);
            a != b && EqAsWritten(a, AsRecord(b)) && !Eq(a, AsRecord(b))
  {
  }

  /**
   * Record equality as intended: never equal to a non-record, two faux
   * records are equal, a faux and a real record differ, and two real
   * records are equal when every attribute matches.
   */
  function Eq(a: Record, b: Operand): bool
  {
    match b
    case NotRecord => false
    case AsRecord(other) =>
      if a.faux || other.faux then a.faux && other.faux
      else a == other
  }

  /** Properties of the intended equality: it is an equivalence on records. */
  lemma EqIsEquivalence(a: Record, b: Record, c: Record)
    ensures Eq(a, AsRecord(a))
    ensures Eq(a, AsRecord(b)) <==> Eq(b, AsRecord(a))
    ensures Eq(a, AsRecord(b)) && Eq(b, AsRecord(c)) ==> Eq(a, AsRecord(c))
  {
  }

  /** The cases the written equality gets right agree with the intended one. */
  lemma EqAgreesWhereWrittenIsRight(a: Record, b: Operand)
    requires b.NotRecord? || (a.faux && b.record.faux)
    ensures Eq(a, b) == EqAsWritten(a, b)
    ensures Eq(a, NotRecord) == false
  {
  }

  /** Two real records are equal exactly when their attributes all agree. */
  lemma EqRealRecords(a: Record, b: Record)
    requires !a.faux
    ensures Eq(a, AsRecord(b)) <==>
              (&& !b.faux && a.title == b.title && a.typeCode == b.typeCode
               && a.sideCode == b.sideCode && a.cost == b.cost
               && a.influenceLimit == b.influenceLimit
               && a.minimumDeckSize == b.minimumDeckSize)
  {
  }

  /** A record together with whether it is shown face up. */
  datatype Card = Card(record: Record, faceUp: bool)

  /**
   * Card construction. A card keeps another card's record, wraps a record,
   * or builds one from a mapping; it starts with the given facing. A falsy
   * input stores no record at all, so the first use of the card fails.
   */
  function MakeCard(src: Source, faceUp: bool): (r: Result<Card>)
    ensures r.Err? <==> src.Absent? || src.Unrecognized? || (src.Mapping? && src.entries == map[])
    ensures r.Ok? ==> r.value.faceUp == faceUp
    ensures r.Ok? && r.value.record.faux ==>
              (src.OfRecord? && src.record.faux) || (src.OfCard? && src.card.record.faux)
    ensures src.OfCard? ==> r == Ok(Card(src.card.record, faceUp))
    ensures src.OfRecord? ==> r == Ok(Card(src.record, faceUp))
    ensures src.Mapping? && src.entries != map[] ==> r.Ok? && r.value.record == MakeRecord(src).value
    ensures src.Unrecognized? ==> r == Err(UnrecognizedFormat)
    ensures src.Absent? || (src.Mapping? && src.entries == map[]) ==> r == Err(MissingRecord)
  {
    match src
    case Absent => Err(MissingRecord)
    case Mapping(m) =>
      if m == map[] then Err(MissingRecord)
      else Ok(Card(FromMapping(m), faceUp))
    case OfRecord(rec) => Ok(Card(rec, faceUp))
    case OfCard(c) => Ok(Card(c.record, faceUp))
    case Unrecognized => Err(UnrecognizedFormat)
  }

  /**
   * A card built from anything but another card wraps exactly the record
   * CardBase builds from the same input; CardBase's format error is the
   * card's too.
   */
  lemma MakeCardWrapsMakeRecord(src: Source, faceUp: bool)
    requires !src.OfCard?
    ensures MakeCard(src, faceUp).Ok? ==> MakeRecord(src) == Ok(MakeCard(src, faceUp).value.record)
    ensures MakeRecord(src).Err? ==> MakeCard(src, faceUp) == Err(MakeRecord(src).error)
    ensures MakeCard(src, faceUp).Err? && MakeRecord(src).Ok? ==> MakeRecord(src).value.faux
  {
  }

  /** Turns the card over. */
  function Flip(c: Card): (r: Card)
    ensures r.record == c.record
    ensures r.faceUp != c.faceUp
  {
    c.(faceUp := !c.faceUp)
  }

  /** Flipping twice restores the card. */
  lemma FlipInvolution(c: Card)
    ensures Flip(Flip(c)) == c
  {
  }

  /** What an observer sees: the record when face up, a faux record otherwise. */
  function View(c: Card): (r: Record)
    ensures !c.faceUp ==> r == Faux
    ensures c.faceUp ==> r == c.record
  {
    if c.faceUp then c.record else Faux
  }

  /** A hidden card's view reveals nothing: it is equal to any other hidden card's view. */
  lemma HiddenViewsIndistinguishable(c: Card, d: Card)
    requires !c.faceUp && !d.faceUp
    ensures View(c) == View(d)
    ensures Eq(View(c), AsRecord(View(d)))
  {
  }

  /** A freshly built card is hidden; after one flip its view is its record. */
  lemma FreshCardHiddenThenRevealed(src: Source)
    requires MakeCard(src, false).Ok?
    ensures View(MakeCard(src, false).value).faux
    ensures View(Flip(MakeCard(src, false).value)) == MakeCard(src, false).value.record
  {
  }

  /** Python's `~` on an int (a bool is the int 0 or 1): `~v == -v - 1`. */
  function PyInvert(v: int): int
  {
    -v - 1
  }

  /** Python truthiness of an int. */
  predicate Truthy(v: int)
  {
    v != 0
  }

  /** Card.flip as written: the facing flag becomes `~flag`. */
  function FlipAsWritten(flag: int): int
  {
    PyInvert(flag)
  }

  /** A card built face up (`faceup=True`, the int 1) is still face up after the written flip. */
  lemma FlipAsWrittenKeepsFaceUp()
    ensures Truthy(1) && Truthy(FlipAsWritten(1))
    ensures Flip(Card(Faux, true)).faceUp == false
  {
  }

  function FlipsAsWritten(flag: int, k: nat): int
  {
    if k == 0 then flag else FlipAsWritten(FlipsAsWritten(flag, k - 1))
  }

  /** From face down (`False`, the int 0) the written flip happens to alternate correctly. */
  lemma {:induction false} FlipAsWrittenFromFaceDown(k: nat)
    ensures FlipsAsWritten(0, k) == (if k % 2 == 0 then 0 else -1)
    ensures Truthy(FlipsAsWritten(0, k)) <==> k % 2 == 1
  {
    if k > 0 {
      FlipAsWrittenFromFaceDown(k - 1);
    }
  }
}

=== FILE: container.dfy ===
/**
 * CardContainer: a working list of cards that draws and shuffles change,
 * and a title-sorted snapshot taken at construction that they never touch.
 */
module Containers {
  import opened Wrappers
  import opened Cards
  import opened TitleOrder
  import opened Selection

  /** `cards` is the working list; `frozen` the sorted snapshot. */
  datatype Container = Container(cards: seq<Card>, frozen: seq<Card>)

  /**
   * What a container is built from: nothing (or any falsy value), a truthy
   * value that cannot be iterated, a list of card sources, or another
   * container.
   */
  datatype Input =
    | NoInput
    | NotIterable
    | Items(sources: seq<Source>)
    | CopyOf(other: Container)

  /** No card of the list wraps a faux record, so every card has a title. */
  predicate NoFaux(s: seq<Card>)
  {
    forall i :: 0 <= i < |s| ==> !s[i].record.faux
  }

  /**
   * The snapshot is sorted, all its cards have attributes, and the working
   * list holds only snapshot cards.
   */
  predicate Wf(c: Container)
  {
    Sorted(c.frozen) && NoFaux(c.frozen) && multiset(c.cards) <= multiset(c.frozen)
  }

  /** A list whose cards all occur in a list free of faux records is free of them too. */
  lemma NoFauxWithin(s: seq<Card>, t: seq<Card>)
    requires NoFaux(t) && multiset(s) <= multiset(t)
    ensures NoFaux(s)
  {
    forall i | 0 <= i < |s|
      ensures !s[i].record.faux
    {
      assert s[i] in multiset(s);
      assert s[i] in multiset(t);
      var k :| 0 <= k < |t| && t[k] == s[i];
    }
  }

  /** Builds a face-down card per source, in order; the first failure aborts. */
  function MakeCards(sources: seq<Source>): (r: Result<seq<Card>>)
    ensures r.Ok? <==> forall i :: 0 <= i < |sources| ==> MakeCard(sources[i], false).Ok?
    ensures r.Ok? ==> |r.value| == |sources|
    ensures r.Ok? ==> forall i :: 0 <= i < |sources| ==> r.value[i] == MakeCard(sources[i], false).value
    ensures r.Err? ==> exists i :: 0 <= i < |sources| && MakeCard(sources[i], false) == Err(r.error)
                                   && forall j :: 0 <= j < i ==> MakeCard(sources[j], false).Ok?
  {
    if |sources| == 0 then Ok([])
    else
      match MakeCard(sources[0], false)
      case Err(e) => Err(e)
      case Ok(c) =>
        match MakeCards(sources[1..])
        case Err(e) =>
          assert forall i :: 1 <= i < |sources| ==> sources[i] == sources[1..][i - 1];
          Err(e)
        case Ok(cs) =>
          assert forall i :: 1 <= i < |sources| ==> sources[i] == sources[1..][i - 1];
          Ok([c] + cs)
  }

  /**
   * The error reading a card's title for the sort key raises, if any: a
   * card built from a falsy source wraps no record, and a faux record has
   * no title.
   */
  function TitleError(src: Source): (r: Option<Error>)
    ensures r.None? <==> MakeCard(src, false).Ok? && !MakeCard(src, false).value.record.faux
    ensures src.Absent? || (src.Mapping? && src.entries == map[]) ==> r == Some(MissingRecord)
    ensures MakeCard(src, false).Ok? && MakeCard(src, false).value.record.faux ==> r == Some(MissingAttribute)
    ensures !src.Unrecognized? && r.Some? ==> r.value == MissingRecord || r.value == MissingAttribute
  {
    match MakeCard(src, false)
    case Err(e) => Some(e)
    case Ok(c) => if c.record.faux then Some(MissingAttribute) else None
  }

  /** The first title error in list order: `sorted` computes the keys front to back. */
  function FirstTitleError(sources: seq<Source>): (r: Option<Error>)
    ensures r.None? <==> forall i :: 0 <= i < |sources| ==> TitleError(sources[i]).None?
    ensures r.Some? ==> exists i :: && 0 <= i < |sources| && TitleError(sources[i]) == r
                                    && forall j :: 0 <= j < i ==> TitleError(sources[j]).None?
  {
    if |sources| == 0 then None
    else
      assert forall i :: 1 <= i < |sources| ==> sources[i] == sources[1..][i - 1];
      if TitleError(sources[0]).Some? then TitleError(sources[0])
      else FirstTitleError(sources[1..])
  }

  /**
   * CardContainer construction. A list of sources becomes face-down cards in
   * input order, and the snapshot is their title-sorted copy. Every element
   * is converted before anything is sorted, so an unrecognized element fails
   * first. Sorting then reads every card's title in list order, and the
   * first card without a record, or with a faux one, fails it. A falsy or
   * non-iterable input gives an empty container. Copying another container
   * copies both of its lists (the source copies only the snapshot).
   */
  function MakeContainer(input: Input): (r: Result<Container>)
    ensures input.Items? ==>
              (r.Ok? <==> forall i :: 0 <= i < |input.sources| ==>
                            MakeCard(input.sources[i], false).Ok?
                            && !MakeCard(input.sources[i], false).value.record.faux)
    ensures input.Items? && (exists i :: 0 <= i < |input.sources| && input.sources[i].Unrecognized?) ==>
              r == Err(UnrecognizedFormat)
    ensures input.Items? && r.Err? && r.error != UnrecognizedFormat ==>
              && (forall i :: 0 <= i < |input.sources| ==> !input.sources[i].Unrecognized?)
              && exists i :: && 0 <= i < |input.sources| && TitleError(input.sources[i]) == Some(r.error)
                             && forall j :: 0 <= j < i ==> TitleError(input.sources[j]).None?
    ensures input.Items? && r.Err? ==>
              r.error == UnrecognizedFormat || r.error == MissingRecord || r.error == MissingAttribute
    ensures r.Ok? && input.Items? ==>
              && Len(r.value) == |input.sources|
              && (forall i :: 0 <= i < |input.sources| ==>
                    r.value.cards[i] == MakeCard(input.sources[i], false).value)
              && Sorted(r.value.frozen)
              && multiset(r.value.frozen) == multiset(r.value.cards)
              && r.value.frozen == Sort(r.value.cards)
    ensures input.NoInput? || input.NotIterable? ==> r == Ok(Container([], []))
    ensures input.CopyOf? ==> r == Ok(input.other)
  {
    match input
    case NoInput => Ok(Container([], []))
    case NotIterable => Ok(Container([], []))
    case Items(sources) =>
      if exists i | 0 <= i < |sources| :: sources[i].Unrecognized? then Err(UnrecognizedFormat)
      else
        (match FirstTitleError(sources)
         case Some(e) => Err(e)
         case None =>
           var cs := MakeCards(sources).value;
           Ok(Container(cs, Sort(cs))))
    case CopyOf(other) => Ok(other)
  }

  /**
   * Conversion precedes sorting: an unrecognized element fails the
   * construction even behind a falsy one, and the first unreadable title in
   * list order decides the sort's error.
   */
  lemma ErrorOrder()
    ensures MakeContainer(Items([Absent, Unrecognized])) == Err(UnrecognizedFormat)
    ensures MakeContainer(Items([OfRecord(Faux), Absent])) == Err(MissingAttribute)
    ensures MakeContainer(Items([Absent, OfRecord(Faux)])) == Err(MissingRecord)
    ensures MakeContainer(Items([OfCard(Card(Faux, false))])) == Err(MissingAttribute)
  {
    assert [Absent, Unrecognized][1].Unrecognized?;
    assert FirstTitleError([OfRecord(Faux), Absent]) == TitleError(OfRecord(Faux));
    assert FirstTitleError([Absent, OfRecord(Faux)]) == TitleError(Absent);
  }

  /** A freshly built container is well formed. */
  lemma MakeContainerWf(input: Input)
    requires MakeContainer(input).Ok?
    requires input.CopyOf? ==> Wf(input.other)
    ensures Wf(MakeContainer(input).value)
  {
    if input.Items? {
      var cs := MakeCards(input.sources).value;
      NoFauxWithin(Sort(cs), cs);
    }
  }

  /** The number of cards still in the working list. */
  function Len(c: Container): nat
  {
    |c.cards|
  }

  /** The cards a draw returns and the container left behind. */
  datatype Draw = Draw(drawn: seq<Card>, rest: Container)

  /**
   * `choice(num)`: draws the cards at the positions `picks` (the sample the
   * random generator chose) and removes them from the working list. A
   * negative count or one above the working list's size fails.
   */
  function Choice(c: Container, n: int, picks: seq<nat>): (r: Result<Draw>)
    requires 0 <= n <= |c.cards| ==> IsSample(picks, n, |c.cards|)
    ensures r.Err? <==> n < 0 || n > |c.cards|
    ensures r.Err? ==> r.error == InvalidSampleSize
    ensures r.Ok? ==> |r.value.drawn| == n && Len(r.value.rest) == Len(c) - n
    ensures r.Ok? ==> multiset(r.value.drawn) + multiset(r.value.rest.cards) == multiset(c.cards)
    ensures r.Ok? ==> forall k :: 0 <= k < n ==> r.value.drawn[k] == c.cards[picks[k]]
    ensures r.Ok? ==> r.value.rest.frozen == c.frozen
    ensures r.Ok? ==> Subsequence(r.value.rest.cards, c.cards)
    ensures r.Ok? ==> r.value.rest.cards == Without(c.cards, picks)
  {
    if n < 0 || n > |c.cards| then Err(InvalidSampleSize)
    else
      DrawPartition(c.cards, picks);
      WithoutIsSubsequence(c.cards, picks);
      Ok(Draw(Picked(c.cards, picks), c.(cards := Without(c.cards, picks))))
  }

  /** Drawing keeps the container well formed. */
  lemma ChoiceKeepsWf(c: Container, n: int, picks: seq<nat>)
    requires Wf(c)
    requires 0 <= n <= |c.cards| && IsSample(picks, n, |c.cards|)
    ensures Wf(Choice(c, n, picks).value.rest)
  {
    var r := Choice(c, n, picks).value;
    assert multiset(r.rest.cards) <= multiset(c.cards);
    assert multiset(r.rest.cards) <= multiset(c.frozen);
  }

  /** `shuffle()`: puts the working list in the order `perm` the random generator chose. */
  function Shuffle(c: Container, perm: seq<nat>): (r: Container)
    requires IsPermutation(perm, |c.cards|)
    ensures Len(r) == Len(c)
    ensures multiset(r.cards) == multiset(c.cards)
    ensures forall i :: 0 <= i < |perm| ==> r.cards[i] == c.cards[perm[i]]
    ensures r.frozen == c.frozen
  {
    PermutationKeepsContents(c.cards, perm);
    c.(cards := Picked(c.cards, perm))
  }

  /** Shuffling keeps the container well formed. */
  lemma ShuffleKeepsWf(c: Container, perm: seq<nat>)
    requires Wf(c) && IsPermutation(perm, |c.cards|)
    ensures Wf(Shuffle(c, perm))
  {
  }

  /** The sources that rebuild a container from a list of existing cards. */
  function CardSources(cards: seq<Card>): (r: seq<Source>)
    ensures |r| == |cards|
    ensures forall i :: 0 <= i < |cards| ==> r[i] == OfCard(cards[i])
  {
    seq(|cards|, i requires 0 <= i < |cards| => OfCard(cards[i]))
  }

  /** Cards drawn from a container build a new container of exactly that many hidden cards. */
  lemma ContainerFromDrawnCards(c: Container, n: int, picks: seq<nat>)
    requires Wf(c)
    requires 0 <= n <= |c.cards| && IsSample(picks, n, |c.cards|)
    ensures var drawn := Choice(c, n, picks).value.drawn;
            var r := MakeContainer(Items(CardSources(drawn)));
            && r.Ok? && Len(r.value) == n
            && forall i :: 0 <= i < n ==> r.value.cards[i] == Card(drawn[i].record, false)
  {
    var drawn := Choice(c, n, picks).value.drawn;
    NoFauxWithin(c.cards, c.frozen);
    assert NoFaux(drawn);
  }
}

=== FILE: deck.dfy ===
/**
 * Deck: a container with an identity card, the attributes derived from it,
 * and legality as the conjunction of an ordered list of validation rules
 * read off the title-sorted snapshot.
 */
module Decks {
  import opened Wrappers
  import opened Cards
  import opened Containers

  /** The identity's influence limit, side and minimum size are fixed when the deck is built. */
  datatype Deck = Deck(
    container: Container,
    identity: Card,
    influenceLimit: Option<int>,
    side: Option<string>,
    minDeckSize: Option<int>,
    valid: bool)

  function Snapshot(d: Deck): seq<Card>
  {
    d.container.frozen
  }

  /** The first identity card of the snapshot; a snapshot without one has no identity. */
  function FindIdentity(frozen: seq<Card>): (r: Result<Card>)
    ensures r.Err? <==> forall i :: 0 <= i < |frozen| ==> !IsIdentity(frozen[i].record)
    ensures r.Err? ==> r.error == NoIdentityFound
    ensures r.Ok? ==> exists i :: && 0 <= i < |frozen| && frozen[i] == r.value
                                  && IsIdentity(frozen[i].record)
                                  && forall j :: 0 <= j < i ==> !IsIdentity(frozen[j].record)
  {
    if |frozen| == 0 then Err(NoIdentityFound)
    else if IsIdentity(frozen[0].record) then Ok(frozen[0])
    else
      var r := FindIdentity(frozen[1..]);
      assert forall i :: 1 <= i < |frozen| ==> frozen[i] == frozen[1..][i - 1];
      if r.Ok? then
        var i :| && 0 <= i < |frozen[1..]| && frozen[1..][i] == r.value
                 && IsIdentity(frozen[1..][i].record)
                 && forall j :: 0 <= j < i ==> !IsIdentity(frozen[1..][j].record);
        assert frozen[i + 1] == r.value;
        assert forall j :: 0 < j < i + 1 ==> !IsIdentity(frozen[j].record) by {
          forall j | 0 < j < i + 1 ensures !IsIdentity(frozen[j].record) {
            assert frozen[j] == frozen[1..][j - 1];
          }
        }
        r
      else r
  }

  /** The number of identity cards in a card list. */
  function CountIdentities(s: seq<Card>): nat
  {
    if |s| == 0 then 0
    else (if IsIdentity(s[0].record) then 1 else 0) + CountIdentities(s[1..])
  }

  /** The side codes present in a card list. */
  function Sides(s: seq<Card>): set<Option<string>>
  {
    set i | 0 <= i < |s| :: s[i].record.sideCode
  }

  /** The summed influence cost of a card list to an identity. */
  function InfluenceTotal(s: seq<Card>, identity: Record): int
  {
    if |s| == 0 then 0 else Costs(s[0].record, identity) + InfluenceTotal(s[1..], identity)
  }

  /** validate_deck_size; a missing minimum passes, as `int >= None` is true in Python 2. */
  function DeckSizeOk(d: Deck): (r: bool)
    ensures d.minDeckSize.None? ==> r
    ensures d.minDeckSize.Some? && |Snapshot(d)| >= d.minDeckSize.value ==> r
    ensures d.minDeckSize.Some? && |Snapshot(d)| + 1 == d.minDeckSize.value ==> !r
  {
    d.minDeckSize.None? || |Snapshot(d)| >= d.minDeckSize.value
  }

  /** validate_agenda_points: a placeholder that always passes. */
  function AgendaPointsOk(d: Deck): (r: bool)
    ensures r
  {
    true
  }

  /** validate_has_only_one_identity: exactly one card of the snapshot is an identity. */
  function OnlyOneIdentityOk(d: Deck): (r: bool)
    ensures r <==> exists i :: OnlyIdentityAt(Snapshot(d), i)
  {
    CountIdentitiesOneIff(Snapshot(d));
    CountIdentities(Snapshot(d)) == 1
  }

  /** validate_composition: exactly one side code among the snapshot's cards. */
  function CompositionOk(d: Deck): (r: bool)
    ensures r <==> |Snapshot(d)| > 0
                   && forall i, j :: 0 <= i < |Snapshot(d)| && 0 <= j < |Snapshot(d)| ==>
                                       Snapshot(d)[i].record.sideCode == Snapshot(d)[j].record.sideCode
  {
    CompositionIff(Snapshot(d));
    |Sides(Snapshot(d))| == 1
  }

  /** validate_influence; a missing limit fails, as `int <= None` is false in Python 2. */
  function InfluenceOk(d: Deck): (r: bool)
    ensures d.influenceLimit.None? ==> !r
    ensures d.influenceLimit.Some? && InfluenceTotal(Snapshot(d), d.identity.record) == d.influenceLimit.value ==> r
    ensures d.influenceLimit.Some? && InfluenceTotal(Snapshot(d), d.identity.record) == d.influenceLimit.value + 1 ==> !r
  {
    d.influenceLimit.Some? && InfluenceTotal(Snapshot(d), d.identity.record) <= d.influenceLimit.value
  }

  /** The card at i is the only identity card of s. */
  predicate OnlyIdentityAt(s: seq<Card>, i: int)
  {
    && 0 <= i < |s| && IsIdentity(s[i].record)
    && forall j :: 0 <= j < |s| && j != i ==> !IsIdentity(s[j].record)
  }

  /** Exactly one identity card, counted or located: both directions. */
  lemma CountIdentitiesOneIff(s: seq<Card>)
    ensures CountIdentities(s) == 1 <==> exists i :: OnlyIdentityAt(s, i)
  {
    if CountIdentities(s) == 1 {
      var i := CountOneLocates(s);
    }
    if exists i :: OnlyIdentityAt(s, i) {
      var i :| OnlyIdentityAt(s, i);
      LocatedCountsOne(s, i);
    }
  }

  lemma {:induction false} CountOneLocates(s: seq<Card>) returns (i: int)
    requires CountIdentities(s) == 1
    ensures OnlyIdentityAt(s, i)
  {
    var t := s[1..];
    if IsIdentity(s[0].record) {
      CountIdentitiesZeroIff(t);
      i := 0;
      forall j | 0 < j < |s| ensures !IsIdentity(s[j].record) {
        assert s[j] == t[j - 1];
      }
    } else {
      var k := CountOneLocates(t);
      i := k + 1;
      assert s[i] == t[k];
      forall j | 0 < j < |s| && j != i ensures !IsIdentity(s[j].record) {
        assert s[j] == t[j - 1];
      }
    }
  }

  lemma {:induction false} LocatedCountsOne(s: seq<Card>, i: int)
    requires OnlyIdentityAt(s, i)
    ensures CountIdentities(s) == 1
  {
    var t := s[1..];
    if i == 0 {
      forall k | 0 <= k < |t| ensures !IsIdentity(t[k].record) {
        assert t[k] == s[k + 1];
      }
      CountIdentitiesZeroIff(t);
    } else {
      assert !IsIdentity(s[0].record);
      assert t[i - 1] == s[i];
      forall k | 0 <= k < |t| && k != i - 1 ensures !IsIdentity(t[k].record) {
        assert t[k] == s[k + 1];
      }
      LocatedCountsOne(t, i - 1);
    }
  }

  lemma {:induction false} CountIdentitiesZeroIff(s: seq<Card>)
    ensures CountIdentities(s) == 0 <==> forall k :: 0 <= k < |s| ==> !IsIdentity(s[k].record)
  {
    if |s| > 0 {
      var t := s[1..];
      assert forall k :: 1 <= k < |s| ==> s[k] == t[k - 1];
      CountIdentitiesZeroIff(t);
    }
  }

  /** The validation rules, each named after the method it models. */
  datatype Rule = DeckSize | AgendaPoints | OnlyOneIdentity | Composition | Influence

  /** The rules in the order they are declared, which is the order they are checked and reported. */
  const Rules: seq<Rule> := [DeckSize, AgendaPoints, OnlyOneIdentity, Composition, Influence]

  predicate Holds(rule: Rule, d: Deck)
  {
    match rule
    case DeckSize => DeckSizeOk(d)
    case AgendaPoints => AgendaPointsOk(d)
    case OnlyOneIdentity => OnlyOneIdentityOk(d)
    case Composition => CompositionOk(d)
    case Influence => InfluenceOk(d)
  }

  /** A rule's position in the declared order. */
  function RuleIndex(rule: Rule): nat
  {
    match rule
    case DeckSize => 0
    case AgendaPoints => 1
    case OnlyOneIdentity => 2
    case Composition => 3
    case Influence => 4
  }

  /** The rules of a list are in declared order, none repeated. */
  predicate InRuleOrder(rules: seq<Rule>)
  {
    forall i, j :: 0 <= i < j < |rules| ==> RuleIndex(rules[i]) < RuleIndex(rules[j])
  }

  /** Checks the rules in order, stopping at the first that fails. */
  function AllHold(rules: seq<Rule>, d: Deck): (r: bool)
    ensures r <==> forall i :: 0 <= i < |rules| ==> Holds(rules[i], d)
  {
    if |rules| == 0 then true
    else
      assert forall i :: 1 <= i < |rules| ==> rules[i] == rules[1..][i - 1];
      Holds(rules[0], d) && AllHold(rules[1..], d)
  }

  /** The rules that fail, in rule order, for reporting which ones a deck breaks. */
  function Failing(rules: seq<Rule>, d: Deck): (r: seq<Rule>)
    ensures forall rule :: rule in r <==> rule in rules && !Holds(rule, d)
    ensures |r| <= |rules|
    ensures InRuleOrder(rules) ==> InRuleOrder(r)
  {
    if |rules| == 0 then []
    else
      var rest := Failing(rules[1..], d);
      assert InRuleOrder(rules) ==> forall k :: 0 <= k < |rest| ==> RuleIndex(rules[0]) < RuleIndex(rest[k]) by {
        if InRuleOrder(rules) {
          forall k | 0 <= k < |rest| ensures RuleIndex(rules[0]) < RuleIndex(rest[k]) {
            assert rest[k] in rules[1..];
            var m :| 0 <= m < |rules[1..]| && rules[1..][m] == rest[k];
            assert rules[m + 1] == rest[k];
          }
        }
      }
      (if Holds(rules[0], d) then [] else [rules[0]]) + rest
  }

  /** Failing rules are reported in the declared rule order. */
  lemma FailuresReportedInOrder(d: Deck)
    ensures InRuleOrder(Failing(Rules, d))
  {
    assert InRuleOrder(Rules);
  }

  /** Legality: every registered rule passes. */
  function Validate(d: Deck): (r: bool)
    ensures r <==> DeckSizeOk(d) && AgendaPointsOk(d) && OnlyOneIdentityOk(d) && CompositionOk(d) && InfluenceOk(d)
  {
    assert Rules[0] == DeckSize && Rules[1] == AgendaPoints && Rules[2] == OnlyOneIdentity;
    assert Rules[3] == Composition && Rules[4] == Influence;
    AllHold(Rules, d)
  }

  /** A deck is legal exactly when it meets each of the four real rules. */
  lemma ValidateIff(d: Deck)
    ensures Validate(d) <==> DeckSizeOk(d) && OnlyOneIdentityOk(d) && CompositionOk(d) && InfluenceOk(d)
  {
    assert Rules[0] == DeckSize && Rules[2] == OnlyOneIdentity;
    assert Rules[3] == Composition && Rules[4] == Influence;
  }

  /** A deck is legal exactly when no rule is reported as failing. */
  lemma ValidateIffNothingFails(d: Deck)
    ensures Validate(d) <==> Failing(Rules, d) == []
  {
    if !Validate(d) {
      var i :| 0 <= i < |Rules| && !Holds(Rules[i], d);
      assert Rules[i] in Failing(Rules, d);
    }
    if Failing(Rules, d) != [] {
      var rule := Failing(Rules, d)[0];
      assert rule in Failing(Rules, d);
      var i :| 0 <= i < |Rules| && Rules[i] == rule;
    }
  }

  /**
   * Deck construction: build the container, take the first identity of the
   * snapshot (none aborts the construction), derive the identity's limits,
   * and only then run the rules. The source runs its validation before the
   * identity is known; see `ValidateAsWritten`.
   */
  function MakeDeck(input: Input): (r: Result<Deck>)
    ensures r.Err? <==> MakeContainer(input).Err?
                        || FindIdentity(MakeContainer(input).value.frozen).Err?
    ensures MakeContainer(input).Ok? && r.Err? ==> r.error == NoIdentityFound
    ensures r.Ok? ==> && r.value.container == MakeContainer(input).value
                      && r.value.identity == FindIdentity(Snapshot(r.value)).value
                      && r.value.identity in Snapshot(r.value)
                      && IsIdentity(r.value.identity.record)
                      && r.value.influenceLimit == r.value.identity.record.influenceLimit
                      && r.value.minDeckSize == r.value.identity.record.minimumDeckSize
                      && r.value.side == r.value.identity.record.sideCode
    ensures r.Ok? ==> (r.value.valid <==> Validate(r.value))
  {
    match MakeContainer(input)
    case Err(e) => Err(e)
    case Ok(c) =>
      match FindIdentity(c.frozen)
      case Err(e) => Err(e)
      case Ok(id) =>
        var d := Deck(c, id, id.record.influenceLimit, id.record.sideCode, id.record.minimumDeckSize, false);
        assert Validate(d) == Validate(d.(valid := true)) by {
          ValidateIff(d);
          ValidateIff(d.(valid := true));
        }
        Ok(d.(valid := Validate(d)))
  }

  /**
   * Input whose snapshot holds two identities still builds a deck, around
   * the first of them, and that deck is illegal.
   */
  lemma TwoIdentitiesBuildButFail(input: Input, i: nat, j: nat)
    requires MakeContainer(input).Ok?
    requires i < j < |MakeContainer(input).value.frozen|
    requires IsIdentity(MakeContainer(input).value.frozen[i].record)
    requires IsIdentity(MakeContainer(input).value.frozen[j].record)
    ensures MakeDeck(input).Ok?
    ensures !OnlyOneIdentityOk(MakeDeck(input).value) && !MakeDeck(input).value.valid
  {
    var s := MakeContainer(input).value.frozen;
    CountAtLeastTwo(s, i, j);
  }

  lemma {:induction false} CountAtLeastTwo(s: seq<Card>, i: nat, j: nat)
    requires i < j < |s|
    requires IsIdentity(s[i].record) && IsIdentity(s[j].record)
    ensures CountIdentities(s) >= 2
  {
    if i > 0 {
      CountAtLeastTwo(s[1..], i - 1, j - 1);
    } else {
      CountAtLeastOne(s[1..], j - 1);
    }
  }

  lemma {:induction false} CountAtLeastOne(s: seq<Card>, i: nat)
    requires i < |s| && IsIdentity(s[i].record)
    ensures CountIdentities(s) >= 1
  {
    if i > 0 {
      CountAtLeastOne(s[1..], i - 1);
    }
  }

  /** A legal deck's identity is the only identity card in it. */
  lemma LegalDeckHasOneIdentity(d: Deck)
    requires d.identity in Snapshot(d) && IsIdentity(d.identity.record)
    requires Validate(d)
    ensures forall k :: 0 <= k < |Snapshot(d)| && IsIdentity(Snapshot(d)[k].record) ==> Snapshot(d)[k] == d.identity
  {
    ValidateIff(d);
    var s := Snapshot(d);
    var i :| 0 <= i < |s| && s[i] == d.identity;
    var w :| OnlyIdentityAt(s, w);
    assert i == w;
  }

  /** One side code means a non-empty deck whose cards all share it; both directions. */
  lemma CompositionIff(s: seq<Card>)
    ensures |Sides(s)| == 1 <==>
              |s| > 0 && forall i, j :: 0 <= i < |s| && 0 <= j < |s| ==> s[i].record.sideCode == s[j].record.sideCode
  {
    if |s| > 0 && forall i, j :: 0 <= i < |s| && 0 <= j < |s| ==> s[i].record.sideCode == s[j].record.sideCode {
      assert Sides(s) == {s[0].record.sideCode};
    }
    if |Sides(s)| == 1 {
      var x :| x in Sides(s);
      assert |Sides(s) - {x}| == 0;
      assert Sides(s) == {x};
      assert |s| > 0;
      forall i, j | 0 <= i < |s| && 0 <= j < |s|
        ensures s[i].record.sideCode == s[j].record.sideCode
      {
        assert s[i].record.sideCode in Sides(s);
        assert s[j].record.sideCode in Sides(s);
      }
    }
  }

  /** An empty deck, or one with cards of two sides, fails composition and is illegal. */
  lemma MixedOrEmptyDeckIllegal(d: Deck)
    requires |Snapshot(d)| == 0
          || exists i, j :: 0 <= i < |Snapshot(d)| && 0 <= j < |Snapshot(d)|
                            && Snapshot(d)[i].record.sideCode != Snapshot(d)[j].record.sideCode
    ensures !CompositionOk(d) && !Validate(d)
  {
    CompositionIff(Snapshot(d));
    ValidateIff(d);
  }

  /** A deck below its identity's minimum size is illegal. */
  lemma UndersizedDeckIllegal(d: Deck)
    requires d.minDeckSize.Some? && |Snapshot(d)| < d.minDeckSize.value
    ensures !DeckSizeOk(d) && !Validate(d)
  {
    ValidateIff(d);
  }

  /** Influence passes at or under the limit and fails over it or without one. */
  lemma InfluenceLimitBoundary(d: Deck)
    requires d.influenceLimit.Some?
    ensures InfluenceTotal(Snapshot(d), d.identity.record) == d.influenceLimit.value ==> InfluenceOk(d)
    ensures InfluenceTotal(Snapshot(d), d.identity.record) < d.influenceLimit.value ==> InfluenceOk(d)
    ensures InfluenceTotal(Snapshot(d), d.identity.record) > d.influenceLimit.value ==> !Validate(d)
  {
    ValidateIff(d);
  }

  /** A single card adds its cost exactly when it is charged. */
  lemma InfluenceTotalOfOne(c: Card, identity: Record)
    ensures Charged(c.record, identity) ==> InfluenceTotal([c], identity) == c.record.cost.value
    ensures !Charged(c.record, identity) ==> InfluenceTotal([c], identity) == 0
  {
    assert [c][1..] == [];
  }

  /** The total of two lists laid end to end is the sum of their totals. */
  lemma {:induction false} InfluenceTotalAppend(s: seq<Card>, t: seq<Card>, identity: Record)
    ensures InfluenceTotal(s + t, identity) == InfluenceTotal(s, identity) + InfluenceTotal(t, identity)
  {
    if |s| == 0 {
      assert s + t == t;
    } else {
      assert (s + t)[0] == s[0];
      assert (s + t)[1..] == s[1..] + t;
      InfluenceTotalAppend(s[1..], t, identity);
    }
  }

  /** With non-negative costs the total influence is never negative. */
  lemma {:induction false} InfluenceTotalNonNegative(s: seq<Card>, identity: Record)
    requires forall i :: 0 <= i < |s| ==> s[i].record.cost.None? || s[i].record.cost.value >= 0
    ensures InfluenceTotal(s, identity) >= 0
  {
    if |s| > 0 {
      assert forall i :: 1 <= i < |s| ==> s[i] == s[1..][i - 1];
      InfluenceTotalNonNegative(s[1..], identity);
    }
  }

  /** Cards that all share the identity's side cost no influence at all. */
  lemma {:induction false} SameSideCostsNoInfluence(s: seq<Card>, identity: Record)
    requires forall i :: 0 <= i < |s| ==> s[i].record.sideCode == identity.sideCode
    ensures InfluenceTotal(s, identity) == 0
  {
    if |s| > 0 {
      assert forall i :: 1 <= i < |s| ==> s[i] == s[1..][i - 1];
      SameSideCostsNoInfluence(s[1..], identity);
    }
  }

  /**
   * Because costs compare sides rather than factions, a deck that passes
   * composition and holds its identity owes no influence: the influence
   * rule then only asks for a non-negative limit.
   */
  lemma ComposedDeckOwesNoInfluence(d: Deck)
    requires d.identity in Snapshot(d)
    requires CompositionOk(d)
    ensures InfluenceTotal(Snapshot(d), d.identity.record) == 0
    ensures InfluenceOk(d) <==> d.influenceLimit.Some? && d.influenceLimit.value >= 0
  {
    var s := Snapshot(d);
    CompositionIff(s);
    var k :| 0 <= k < |s| && s[k] == d.identity;
    SameSideCostsNoInfluence(s, d.identity.record);
  }

  /** `substring in s`. */
  predicate ContainsSub(s: string, sub: string)
  {
    |s| >= |sub| && (s[..|sub|] == sub || ContainsSub(s[1..], sub))
  }

  /** The method names the rules are registered under. */
  function RuleName(rule: Rule): string
  {
    match rule
    case DeckSize => "validate_deck_size"
    case AgendaPoints => "validate_agenda_points"
    case OnlyOneIdentity => "validate_has_only_one_identity"
    case Composition => "validate_composition"
    case Influence => "validate_influence"
  }

  /** An attribute key and, when it names a rule, that rule. */
  datatype Attribute = Attribute(key: string, rule: Option<Rule>)

  /**
   * Deck.validate's loop: AND together every attribute whose key contains
   * `validate_`. Attributes that are not rules never contain it.
   */
  function ValidateOver(attrs: seq<Attribute>, d: Deck): bool
  {
    if |attrs| == 0 then true
    else
      var a := attrs[0];
      (if ContainsSub(a.key, "validate_") && a.rule.Some? then Holds(a.rule.value, d) else true)
      && ValidateOver(attrs[1..], d)
  }

  /**
   * The instance attributes `validate()` scans in the source: what
   * CardContainer's constructor leaves in `self.__dict__`. The rules are
   * methods of the class, so none of them is among these.
   */
  const InstanceAttributes: seq<Attribute> :=
    [Attribute("frozen_cards", None), Attribute("cards", None)]

  /** The rules as class attributes, which is what the scan was meant to find. */
  function RuleAttributes(rules: seq<Rule>): (r: seq<Attribute>)
    ensures |r| == |rules|
    ensures forall i :: 0 <= i < |rules| ==> r[i] == Attribute(RuleName(rules[i]), Some(rules[i]))
  {
    seq(|rules|, i requires 0 <= i < |rules| => Attribute(RuleName(rules[i]), Some(rules[i])))
  }

  /** Deck.validate as written: the scan of the instance attributes. */
  function ValidateAsWritten(d: Deck): bool
  {
    ValidateOver(InstanceAttributes, d)
  }

  lemma NoInstanceAttributeIsARule()
    ensures !ContainsSub("frozen_cards", "validate_")
    ensures !ContainsSub("cards", "validate_")
  {
    NoVNoRule("frozen_cards");
    NoVNoRule("cards");
  }

  lemma {:induction false} NoVNoRule(s: string)
    requires forall i :: 0 <= i < |s| ==> s[i] != 'v'
    ensures !ContainsSub(s, "validate_")
  {
    if |s| >= 9 {
      assert s[..9][0] != 'v';
      NoVNoRule(s[1..]);
    }
  }

  /** As written, every deck is reported valid. */
  lemma ValidateAsWrittenAlwaysTrue(d: Deck)
    ensures ValidateAsWritten(d)
  {
    NoInstanceAttributeIsARule();
    assert InstanceAttributes[1..] == [Attribute("cards", None)];
  }

  /** Every rule method's name contains the `validate_` marker the scan looks for. */
  lemma RuleNameMarked(rule: Rule)
    ensures ContainsSub(RuleName(rule), "validate_")
  {
    assert RuleName(rule)[..9] == "validate_";
  }

  /** A scan of the rule attributes gives the intended conjunction. */
  lemma {:induction false} ScanOfRulesIsValidate(rules: seq<Rule>, d: Deck)
    ensures ValidateOver(RuleAttributes(rules), d) == AllHold(rules, d)
  {
    if |rules| > 0 {
      RuleNameMarked(rules[0]);
      assert RuleAttributes(rules)[1..] == RuleAttributes(rules[1..]);
      ScanOfRulesIsValidate(rules[1..], d);
    }
  }

  /** A one-card runner deck that needs 45 cards: illegal, yet the written check passes it. */
  lemma ValidateAsWrittenCounterexample()
    ensures var id := Card(Record(Some("Kate \"Mac\" McCaffrey"), Some("identity"), Some("runner"),
                                  None, Some(15), Some(45), false), false);
            var d := Deck(Container([id], [id]), id, Some(15), Some("runner"), Some(45), true);
            ValidateAsWritten(d) && !Validate(d)
  {
    var id := Card(Record(Some("Kate \"Mac\" McCaffrey"), Some("identity"), Some("runner"),
                          None, Some(15), Some(45), false), false);
    var d := Deck(Container([id], [id]), id, Some(15), Some("runner"), Some(45), true);
    ValidateAsWrittenAlwaysTrue(d);
    UndersizedDeckIllegal(d);
  }
}

=== FILE: listing.dfy ===
/**
 * `pretty_print`: the snapshot grouped into maximal runs of equal titles,
 * one line `"<count>x <title>\n"` per run, in snapshot order.
 */
module Listing {
  import opened Wrappers
  import opened Cards
  import opened TitleOrder
  import opened Containers

  /** A run of `count` consecutive cards sharing `title`. */
  datatype Group = Group(count: nat, title: Option<string>)

  function Titles(s: seq<Card>): (r: seq<Option<string>>)
    ensures |r| == |s|
    ensures forall i :: 0 <= i < |s| ==> r[i] == Key(s[i])
  {
    seq(|s|, i requires 0 <= i < |s| => Key(s[i]))
  }

  /** Runs are non-empty and no two neighbouring runs share a title. */
  predicate Maximal(gs: seq<Group>)
  {
    && (forall i :: 0 <= i < |gs| ==> gs[i].count >= 1)
    && (forall i :: 0 < i < |gs| ==> gs[i - 1].title != gs[i].title)
  }

  /** `itertools.groupby` by title: the maximal runs of equal titles. */
  function Runs(ts: seq<Option<string>>): (r: seq<Group>)
    ensures Maximal(r)
    ensures |ts| > 0 ==> |r| > 0 && r[0].title == ts[0]
    ensures |ts| == 0 ==> r == []
  {
    if |ts| == 0 then []
    else
      var rest := Runs(ts[1..]);
      if |rest| > 0 && rest[0].title == ts[0] then
        [Group(rest[0].count + 1, ts[0])] + rest[1..]
      else
        [Group(1, ts[0])] + rest
  }

  function Repeat(t: Option<string>, k: nat): (r: seq<Option<string>>)
    ensures |r| == k
    ensures forall i :: 0 <= i < k ==> r[i] == t
  {
    seq(k, _ => t)
  }

  /** Writes every run out again, title by title. */
  function Expand(gs: seq<Group>): seq<Option<string>>
  {
    if |gs| == 0 then [] else Repeat(gs[0].title, gs[0].count) + Expand(gs[1..])
  }

  /** The total of the run counts. */
  function Total(gs: seq<Group>): nat
  {
    if |gs| == 0 then 0 else gs[0].count + Total(gs[1..])
  }

  lemma {:induction false} ExpandLength(gs: seq<Group>)
    ensures |Expand(gs)| == Total(gs)
  {
    if |gs| > 0 {
      ExpandLength(gs[1..]);
    }
  }

  /** Writing the runs back out gives exactly the titles that were grouped. */
  lemma {:induction false} RunsRoundTrip(ts: seq<Option<string>>)
    ensures Expand(Runs(ts)) == ts
  {
    if |ts| > 0 {
      var rest := Runs(ts[1..]);
      RunsRoundTrip(ts[1..]);
      if |rest| > 0 && rest[0].title == ts[0] {
        assert rest == [rest[0]] + rest[1..];
        assert Expand(rest) == Repeat(ts[0], rest[0].count) + Expand(rest[1..]);
        assert [Group(rest[0].count + 1, ts[0])] + rest[1..] != [];
        assert Repeat(ts[0], rest[0].count + 1) == [ts[0]] + Repeat(ts[0], rest[0].count);
      } else {
        assert Repeat(ts[0], 1) == [ts[0]];
      }
    }
  }

  /** The run counts add up to the number of cards grouped. */
  lemma RunsCountEverything(ts: seq<Option<string>>)
    ensures Total(Runs(ts)) == |ts|
  {
    RunsRoundTrip(ts);
    ExpandLength(Runs(ts));
  }

  /** Runs are the only maximal grouping of a title list. */
  lemma {:induction false} RunsUnique(ts: seq<Option<string>>, gs: seq<Group>)
    requires Maximal(gs) && Expand(gs) == ts
    ensures gs == Runs(ts)
    decreases |ts|
  {
    if |gs| > 0 {
      var g := gs[0];
      var tail := gs[1..];
      assert Maximal(tail);
      assert ts == Repeat(g.title, g.count) + Expand(tail);
      if g.count == 1 {
        RunsUnique(ts[1..], tail);
        if |tail| > 0 {
          assert Expand(tail) == Repeat(tail[0].title, tail[0].count) + Expand(tail[1..]);
          assert Runs(ts[1..])[0].title == tail[0].title;
        }
        assert gs == [Group(1, ts[0])] + tail;
      } else {
        var shorter := [Group(g.count - 1, g.title)] + tail;
        assert Maximal(shorter);
        assert Expand(shorter) == Repeat(g.title, g.count - 1) + Expand(tail);
        assert Repeat(g.title, g.count) == [g.title] + Repeat(g.title, g.count - 1);
        assert Expand(shorter) == ts[1..];
        RunsUnique(ts[1..], shorter);
        assert gs == [Group(shorter[0].count + 1, ts[0])] + shorter[1..];
      }
    } else {
      assert ts == [];
    }
  }

  /** The decimal digits of a count, as `str(n)` writes them. */
  function Decimal(n: nat): (r: string)
    ensures |r| > 0
    ensures forall i :: 0 <= i < |r| ==> '0' <= r[i] <= '9'
    ensures r[0] == '0' ==> n == 0
  {
    var d := ['0' + (n % 10) as char];
    if n < 10 then d else Decimal(n / 10) + d
  }

  /** The number a string of decimal digits stands for. */
  function DecimalValue(s: string): int
  {
    if |s| == 0 then 0 else 10 * DecimalValue(s[..|s| - 1]) + (s[|s| - 1] as int - '0' as int)
  }

  /** Reading back the digits of a count gives the count. */
  lemma {:induction false} DecimalRoundTrip(n: nat)
    ensures DecimalValue(Decimal(n)) == n
  {
    if n >= 10 {
      DecimalRoundTrip(n / 10);
      var s := Decimal(n);
      assert s[..|s| - 1] == Decimal(n / 10);
    }
  }

  /** How `unicode(title)` shows a title; a missing one prints as `None`. */
  function TitleText(t: Option<string>): string
  {
    if t.None? then "None" else t.value
  }

  function Line(g: Group): string
  {
    Decimal(g.count) + "x " + TitleText(g.title) + "\n"
  }

  function Concat(lines: seq<string>): string
  {
    if |lines| == 0 then "" else lines[0] + Concat(lines[1..])
  }

  lemma ConcatTwo(lines: seq<string>)
    requires |lines| == 2
    ensures Concat(lines) == lines[0] + lines[1]
  {
    assert Concat(lines[1..]) == lines[1] + Concat([]);
  }

  /** One line per maximal run of equal titles in the snapshot. */
  function PrettyLines(c: Container): (r: seq<string>)
    ensures |r| == |Runs(Titles(c.frozen))|
    ensures forall i :: 0 <= i < |r| ==> r[i] == Line(Runs(Titles(c.frozen))[i])
  {
    var gs := Runs(Titles(c.frozen));
    seq(|gs|, i requires 0 <= i < |gs| => Line(gs[i]))
  }

  /**
   * The listing: one line per maximal run of equal titles, in snapshot
   * order; it is empty exactly when the snapshot is.
   */
  function PrettyPrint(c: Container): (r: string)
    ensures r == Concat(PrettyLines(c))
    ensures r == "" <==> |c.frozen| == 0
  {
    var lines := PrettyLines(c);
    assert |c.frozen| > 0 ==> |lines| > 0 && |lines[0]| > 0;
    Concat(lines)
  }

  /** The digits a line starts with. */
  function LeadingDigits(s: string): string
  {
    if |s| > 0 && '0' <= s[0] <= '9' then [s[0]] + LeadingDigits(s[1..]) else []
  }

  /** The count a listing line shows, read back from its leading digits. */
  function PrintedCount(line: string): int
  {
    DecimalValue(LeadingDigits(line))
  }

  /** The sum of the counts the lines show. */
  function PrintedTotal(lines: seq<string>): int
  {
    if |lines| == 0 then 0 else PrintedCount(lines[0]) + PrintedTotal(lines[1..])
  }

  lemma {:induction false} LeadingDigitsOf(d: string, rest: string)
    requires forall i :: 0 <= i < |d| ==> '0' <= d[i] <= '9'
    requires |rest| > 0 && !('0' <= rest[0] <= '9')
    ensures LeadingDigits(d + rest) == d
  {
    if |d| > 0 {
      assert (d + rest)[1..] == d[1..] + rest;
      LeadingDigitsOf(d[1..], rest);
    }
  }

  /** A line shows the count of its run. */
  lemma LineShowsCount(g: Group)
    ensures PrintedCount(Line(g)) == g.count
  {
    var d := Decimal(g.count);
    var rest := "x " + TitleText(g.title) + "\n";
    assert Line(g) == d + rest;
    LeadingDigitsOf(d, rest);
    DecimalRoundTrip(g.count);
  }

  lemma {:induction false} PrintedTotalOfLines(lines: seq<string>, gs: seq<Group>)
    requires |lines| == |gs|
    requires forall i :: 0 <= i < |gs| ==> lines[i] == Line(gs[i])
    ensures PrintedTotal(lines) == Total(gs)
  {
    if |gs| > 0 {
      LineShowsCount(gs[0]);
      PrintedTotalOfLines(lines[1..], gs[1..]);
    }
  }

  /** The counts printed in the listing add up to the number of cards in the snapshot. */
  lemma PrintedCountsCoverSnapshot(c: Container)
    ensures PrintedTotal(PrettyLines(c)) == |c.frozen|
  {
    var gs := Runs(Titles(c.frozen));
    PrintedTotalOfLines(PrettyLines(c), gs);
    RunsCountEverything(Titles(c.frozen));
  }

  /** The listing is taken from the snapshot, so draws and shuffles leave it as it was. */
  lemma ListingIgnoresWorkingList(c: Container, d: Container)
    requires c.frozen == d.frozen
    ensures PrettyPrint(c) == PrettyPrint(d)
  {
  }

  const SureGamble: Card :=
    Card(Record(Some("Sure Gamble"), Some("event"), Some("runner"), Some(0), None, None, false), false)
  const Diesel: Card :=
    Card(Record(Some("Diesel"), Some("event"), Some("runner"), Some(0), None, None, false), false)

  lemma TitlesCompare()
    ensures TitleLe(Key(Diesel), Key(SureGamble))
    ensures !TitleLe(Key(SureGamble), Key(Diesel))
  {
    assert StrLe("Diesel", "Sure Gamble");
    assert !StrLe("Sure Gamble", "Diesel");
  }

  lemma SortExample()
    ensures Sort([SureGamble, Diesel, SureGamble]) == [Diesel, SureGamble, SureGamble]
  {
    var s := [SureGamble, Diesel, SureGamble];
    TitlesCompare();
    assert s[1..] == [Diesel, SureGamble];
    assert s[1..][1..] == [SureGamble];
    InsertExample();
  }

  lemma InsertExample()
    ensures Sort([SureGamble]) == [SureGamble]
    ensures Sort([Diesel, SureGamble]) == [Diesel, SureGamble]
    ensures Insert(SureGamble, [Diesel, SureGamble]) == [Diesel, SureGamble, SureGamble]
  {
    SortOne();
    SortTwo();
    InsertThird();
  }

  lemma SortOne()
    ensures Sort([SureGamble]) == [SureGamble]
  {
    var one := [SureGamble];
    assert one[1..] == [];
  }

  lemma SortTwo()
    ensures Sort([Diesel, SureGamble]) == [Diesel, SureGamble]
  {
    SortOne();
    TitlesCompare();
    var two := [Diesel, SureGamble];
    assert two[1..] == [SureGamble];
  }

  lemma InsertThird()
    ensures Insert(SureGamble, [Diesel, SureGamble]) == [Diesel, SureGamble, SureGamble]
  {
    TitlesCompare();
    SelfBelow();
    var two := [Diesel, SureGamble];
    assert two[1..] == [SureGamble];
  }

  lemma SelfBelow()
    ensures TitleLe(Key(SureGamble), Key(SureGamble))
  {
    StrLeReflexive("Sure Gamble");
  }

  lemma RunsExample()
    ensures Runs([Some("Diesel"), Some("Sure Gamble"), Some("Sure Gamble")])
            == [Group(1, Some("Diesel")), Group(2, Some("Sure Gamble"))]
  {
    var ts := [Some("Diesel"), Some("Sure Gamble"), Some("Sure Gamble")];
    assert ts[1..][1..] == ts[2..] == [Some("Sure Gamble")];
    assert Runs(ts[2..]) == [Group(1, Some("Sure Gamble"))];
    assert Runs(ts[1..]) == [Group(2, Some("Sure Gamble"))];
  }

  lemma LineExample()
    ensures Line(Group(1, Some("Diesel"))) == "1x Diesel\n"
    ensures Line(Group(2, Some("Sure Gamble"))) == "2x Sure Gamble\n"
  {
    assert Decimal(1) == ['0' + 1 as char] == "1";
    assert Decimal(2) == ['0' + 2 as char] == "2";
  }

  /** Two copies of Sure Gamble and one Diesel list as `1x Diesel` then `2x Sure Gamble`. */
  lemma SureGambleDieselListing()
    ensures PrettyPrint(Container([SureGamble, Diesel, SureGamble], Sort([SureGamble, Diesel, SureGamble])))
            == "1x Diesel\n2x Sure Gamble\n"
  {
    SortExample();
    ListingOfSnapshot(Container([SureGamble, Diesel, SureGamble], Sort([SureGamble, Diesel, SureGamble])));
  }

  lemma ListingOfSnapshot(c: Container)
    requires c.frozen == [Diesel, SureGamble, SureGamble]
    ensures PrettyPrint(c) == "1x Diesel\n2x Sure Gamble\n"
  {
    ExampleLines(c);
    ConcatTwo(PrettyLines(c));
  }

  lemma ExampleLines(c: Container)
    requires c.frozen == [Diesel, SureGamble, SureGamble]
    ensures PrettyLines(c) == ["1x Diesel\n", "2x Sure Gamble\n"]
  {
    RunsExample();
    assert Titles(c.frozen) == [Some("Diesel"), Some("Sure Gamble"), Some("Sure Gamble")];
    LineExample();
  }
}

=== FILE: selection.dfy ===
/**
 * Drawing cards by position. `random.sample` picks distinct positions of the
 * working list; each drawn card is then removed with `list.remove`, which
 * finds the very same object (cards compare by identity), so the remaining
 * list is the working list without the picked positions, in order.
 */
module Selection {

  /** `picks` lists `n` distinct positions of a list of length `size`. */
  predicate IsSample(picks: seq<nat>, n: int, size: nat)
  {
    && |picks| == n
    && (forall k :: 0 <= k < |picks| ==> picks[k] < size)
    && (forall k, l :: 0 <= k < l < |picks| ==> picks[k] != picks[l])
  }

  /** `perm` is an ordering of all positions of a list of length `size`. */
  predicate IsPermutation(perm: seq<nat>, size: nat)
  {
    IsSample(perm, size, size)
  }

  /** The elements at the picked positions, in pick order. */
  function Picked<T>(s: seq<T>, picks: seq<nat>): seq<T>
    requires forall k :: 0 <= k < |picks| ==> picks[k] < |s|
  {
    seq(|picks|, k requires 0 <= k < |picks| => s[picks[k]])
  }

  /** The list without the picked positions, in the original order. */
  function Without<T>(s: seq<T>, picks: seq<nat>): seq<T>
  {
    if |s| == 0 then []
    else Without(s[..|s| - 1], picks) + (if |s| - 1 in picks then [] else [s[|s| - 1]])
  }

  /** `a` is `b` with some elements left out, the rest in the same order. */
  predicate Subsequence<T(==)>(a: seq<T>, b: seq<T>)
    decreases |b|
  {
    |a| == 0
    || (&& |b| > 0
        && ((a[|a| - 1] == b[|b| - 1] && Subsequence(a[..|a| - 1], b[..|b| - 1]))
            || Subsequence(a, b[..|b| - 1])))
  }

  /** The cards left after a draw keep the order they had. */
  lemma {:induction false} WithoutIsSubsequence<T>(s: seq<T>, picks: seq<nat>)
    ensures Subsequence(Without(s, picks), s)
  {
    if |s| > 0 {
      var p := s[..|s| - 1];
      WithoutIsSubsequence(p, picks);
      var w := Without(s, picks);
      assert s[..|s| - 1] == p;
      if |s| - 1 !in picks {
        assert w == Without(p, picks) + [s[|s| - 1]];
        assert w[..|w| - 1] == Without(p, picks);
      } else {
        assert w == Without(p, picks);
      }
    }
  }

  /** `Without` only looks at which positions of the list are picked. */
  lemma {:induction false} WithoutSamePositions<T>(s: seq<T>, a: seq<nat>, b: seq<nat>)
    requires forall i :: 0 <= i < |s| ==> (i in a <==> i in b)
    ensures Without(s, a) == Without(s, b)
  {
    if |s| > 0 {
      WithoutSamePositions(s[..|s| - 1], a, b);
    }
  }

  /** Leaving out one pick of a sample keeps the other positions and their distinctness. */
  lemma DropPick(picks: seq<nat>, k: nat, size: nat)
    requires IsSample(picks, |picks|, size)
    requires k < |picks|
    ensures IsSample(picks[..k] + picks[k + 1..], |picks| - 1, size)
    ensures forall x :: x != picks[k] ==> (x in picks <==> x in picks[..k] + picks[k + 1..])
    ensures picks[k] !in picks[..k] + picks[k + 1..]
  {
    var rest := picks[..k] + picks[k + 1..];
    assert forall i :: 0 <= i < k ==> rest[i] == picks[i];
    assert forall i :: k <= i < |rest| ==> rest[i] == picks[i + 1];
    forall i, j | 0 <= i < j < |rest|
      ensures rest[i] != rest[j]
    {
      var i' := if i < k then i else i + 1;
      var j' := if j < k then j else j + 1;
      assert rest[i] == picks[i'] && rest[j] == picks[j'];
    }
    assert picks == picks[..k] + [picks[k]] + picks[k + 1..];
  }

  /** Taking one position out of the picks takes its element out of the drawn cards. */
  lemma PickedDropAt<T>(s: seq<T>, picks: seq<nat>, k: nat)
    requires forall i :: 0 <= i < |picks| ==> picks[i] < |s|
    requires k < |picks|
    ensures multiset(Picked(s, picks))
            == multiset(Picked(s, picks[..k] + picks[k + 1..])) + multiset{s[picks[k]]}
  {
    var rest := picks[..k] + picks[k + 1..];
    assert forall i :: 0 <= i < k ==> rest[i] == picks[i];
    assert forall i :: k <= i < |rest| ==> rest[i] == picks[i + 1];
    var p, q := Picked(s, picks), Picked(s, rest);
    assert p == q[..k] + [s[picks[k]]] + q[k..];
    assert q == q[..k] + q[k..];
  }

  /**
   * The drawn cards and the remaining cards together are exactly the cards
   * the list held: drawing neither loses nor invents a card.
   */
  lemma {:induction false} DrawPartition<T>(s: seq<T>, picks: seq<nat>)
    requires IsSample(picks, |picks|, |s|)
    ensures multiset(Picked(s, picks)) + multiset(Without(s, picks)) == multiset(s)
    ensures |Without(s, picks)| == |s| - |picks|
    decreases |s|, 1
  {
    if |s| == 0 {
    } else if |s| - 1 in picks {
      DrawPartitionLastPicked(s, picks);
    } else {
      var p := s[..|s| - 1];
      assert s == p + [s[|s| - 1]];
      assert Picked(s, picks) == Picked(p, picks);
      DrawPartition(p, picks);
    }
  }

  lemma {:induction false} DrawPartitionLastPicked<T>(s: seq<T>, picks: seq<nat>)
    requires IsSample(picks, |picks|, |s|)
    requires |s| > 0 && |s| - 1 in picks
    ensures multiset(Picked(s, picks)) + multiset(Without(s, picks)) == multiset(s)
    ensures |Without(s, picks)| == |s| - |picks|
    decreases |s|, 0
  {
    var last := |s| - 1;
    var p := s[..last];
    assert s == p + [s[last]];
    var k :| 0 <= k < |picks| && picks[k] == last;
    var rest := picks[..k] + picks[k + 1..];
    DropPick(picks, k, |s|);
    assert IsSample(rest, |rest|, |p|);
    PickedDropAt(s, picks, k);
    assert Picked(s, rest) == Picked(p, rest);
    DrawPartition(p, rest);
    WithoutSamePositions(p, picks, rest);
  }

  /** Reordering by a permutation of positions keeps exactly the same cards. */
  lemma PermutationKeepsContents<T>(s: seq<T>, perm: seq<nat>)
    requires IsPermutation(perm, |s|)
    ensures multiset(Picked(s, perm)) == multiset(s)
  {
    DrawPartition(s, perm);
  }
}

=== FILE: title_order.dfy ===
/**
 * The order `sorted(..., key=lambda c: c.title)` puts cards in: Python 2
 * places `None` before every string and compares strings character by
 * character. The sort is a stable insertion sort: a card goes ahead of the
 * first card whose title is not smaller, so equal titles keep input order.
 */
module TitleOrder {
  import opened Wrappers
  import opened Cards

  /** Lexicographic order on strings. */
  predicate StrLe(a: string, b: string)
  {
    |a| == 0 || (|b| > 0 && (a[0] < b[0] || (a[0] == b[0] && StrLe(a[1..], b[1..]))))
  }

  lemma {:induction false} StrLeTotal(a: string, b: string)
    ensures StrLe(a, b) || StrLe(b, a)
  {
    if |a| > 0 && |b| > 0 && a[0] == b[0] {
      StrLeTotal(a[1..], b[1..]);
    }
  }

  lemma {:induction false} StrLeReflexive(a: string)
    ensures StrLe(a, a)
  {
    if |a| > 0 {
      StrLeReflexive(a[1..]);
    }
  }

  lemma {:induction false} StrLeTransitive(a: string, b: string, c: string)
    requires StrLe(a, b) && StrLe(b, c)
    ensures StrLe(a, c)
  {
    if |a| > 0 && a[0] == b[0] && b[0] == c[0] {
      StrLeTransitive(a[1..], b[1..], c[1..]);
    }
  }

  /** Python 2 ordering of optional titles: `None` first. */
  predicate TitleLe(a: Option<string>, b: Option<string>)
  {
    a.None? || (b.Some? && StrLe(a.value, b.value))
  }

  lemma TitleLeTotal(a: Option<string>, b: Option<string>)
    ensures TitleLe(a, b) || TitleLe(b, a)
  {
    if a.Some? && b.Some? {
      StrLeTotal(a.value, b.value);
    }
  }

  lemma TitleLeReflexive(a: Option<string>)
    ensures TitleLe(a, a)
  {
    if a.Some? {
      StrLeReflexive(a.value);
    }
  }

  lemma TitleLeTransitive(a: Option<string>, b: Option<string>, c: Option<string>)
    requires TitleLe(a, b) && TitleLe(b, c)
    ensures TitleLe(a, c)
  {
    if a.Some? {
      StrLeTransitive(a.value, b.value, c.value);
    }
  }

  function Key(c: Card): Option<string>
  {
    c.record.title
  }

  /** The cards are in title order. */
  predicate Sorted(s: seq<Card>)
  {
    forall i, j :: 0 <= i < j < |s| ==> TitleLe(Key(s[i]), Key(s[j]))
  }

  /** A card no larger than any card of a sorted list may go in front of it. */
  lemma PrependSorted(c: Card, s: seq<Card>)
    requires Sorted(s)
    requires forall j :: 0 <= j < |s| ==> TitleLe(Key(c), Key(s[j]))
    ensures Sorted([c] + s)
  {
    var t := [c] + s;
    forall i, j | 0 <= i < j < |t|
      ensures TitleLe(Key(t[i]), Key(t[j]))
    {
      assert t[j] == s[j - 1];
      if i > 0 {
        assert t[i] == s[i - 1];
      }
    }
  }

  /** A card below the head of a sorted list is below all of it. */
  lemma BelowHead(c: Card, s: seq<Card>)
    requires Sorted(s) && |s| > 0 && TitleLe(Key(c), Key(s[0]))
    ensures forall j :: 0 <= j < |s| ==> TitleLe(Key(c), Key(s[j]))
  {
    forall j | 0 < j < |s|
      ensures TitleLe(Key(c), Key(s[j]))
    {
      TitleLeTransitive(Key(c), Key(s[0]), Key(s[j]));
    }
  }

  /** A lower bound of every card of a multiset-equal list bounds this one. */
  lemma BoundByContents(b: Card, s: seq<Card>, t: seq<Card>)
    requires multiset(t) <= multiset(s)
    requires forall j :: 0 <= j < |s| ==> TitleLe(Key(b), Key(s[j]))
    ensures forall j :: 0 <= j < |t| ==> TitleLe(Key(b), Key(t[j]))
  {
    forall j | 0 <= j < |t|
      ensures TitleLe(Key(b), Key(t[j]))
    {
      assert t[j] in multiset(t);
      assert t[j] in multiset(s);
      var k :| 0 <= k < |s| && s[k] == t[j];
    }
  }

  /** Inserts a card ahead of the first card whose title is not smaller than its own. */
  function Insert(c: Card, s: seq<Card>): (r: seq<Card>)
    requires Sorted(s)
    ensures Sorted(r)
    ensures multiset(r) == multiset(s) + multiset{c}
    ensures |r| == |s| + 1
  {
    if |s| == 0 then [c]
    else if TitleLe(Key(c), Key(s[0])) then
      BelowHead(c, s);
      PrependSorted(c, s);
      [c] + s
    else
      var rest := Insert(c, s[1..]);
      assert s == [s[0]] + s[1..];
      TitleLeTotal(Key(c), Key(s[0]));
      var u := s[1..] + [c];
      assert forall j :: 0 <= j < |u| ==> TitleLe(Key(s[0]), Key(u[j])) by {
        forall j | 0 <= j < |u|
          ensures TitleLe(Key(s[0]), Key(u[j]))
        {
          if j < |s| - 1 {
            assert u[j] == s[j + 1];
          }
        }
      }
      assert multiset(u) == multiset(s[1..]) + multiset{c};
      BoundByContents(s[0], u, rest);
      PrependSorted(s[0], rest);
      [s[0]] + rest
  }

  /** Title-sorts a card list, keeping the input order of equal titles. */
  function Sort(s: seq<Card>): (r: seq<Card>)
    ensures Sorted(r)
    ensures multiset(r) == multiset(s)
    ensures |r| == |s|
  {
    if |s| == 0 then []
    else
      assert s == [s[0]] + s[1..];
      Insert(s[0], Sort(s[1..]))
  }

  /** The cards of a list that have title `t`, in list order. */
  function WithTitle(s: seq<Card>, t: Option<string>): seq<Card>
  {
    if |s| == 0 then [] else (if Key(s[0]) == t then [s[0]] else []) + WithTitle(s[1..], t)
  }

  /** Filtering a list with a card in front. */
  lemma WithTitleCons(c: Card, s: seq<Card>, t: Option<string>)
    ensures WithTitle([c] + s, t) == (if Key(c) == t then [c] else []) + WithTitle(s, t)
  {
    assert ([c] + s)[1..] == s;
  }

  /** Insertion puts the card ahead of every card with its own title. */
  lemma {:induction false} InsertWithTitle(c: Card, s: seq<Card>, t: Option<string>)
    requires Sorted(s)
    ensures WithTitle(Insert(c, s), t) == WithTitle([c], t) + WithTitle(s, t)
  {
    var mine := if Key(c) == t then [c] else [];
    WithTitleCons(c, [], t);
    assert WithTitle([c], t) == mine;
    if |s| == 0 {
    } else if TitleLe(Key(c), Key(s[0])) {
      WithTitleCons(c, s, t);
    } else {
      TitleLeReflexive(Key(c));
      assert Key(s[0]) != Key(c);
      var rest := Insert(c, s[1..]);
      assert Insert(c, s) == [s[0]] + rest;
      InsertWithTitle(c, s[1..], t);
      var head := if Key(s[0]) == t then [s[0]] else [];
      WithTitleCons(s[0], rest, t);
      WithTitleCons(s[0], s[1..], t);
      assert s == [s[0]] + s[1..];
      assert mine == [] || head == [];
      assert WithTitle(Insert(c, s), t) == head + (mine + WithTitle(s[1..], t));
    }
  }

  /**
   * The sort is stable: for every title, the cards with that title appear
   * in the snapshot in the order they had in the input.
   */
  lemma {:induction false} SortIsStable(s: seq<Card>, t: Option<string>)
    ensures WithTitle(Sort(s), t) == WithTitle(s, t)
  {
    if |s| > 0 {
      var sorted := Sort(s[1..]);
      assert Sort(s) == Insert(s[0], sorted);
      SortIsStable(s[1..], t);
      InsertWithTitle(s[0], sorted, t);
      var head := if Key(s[0]) == t then [s[0]] else [];
      assert WithTitle([s[0]], t) == head + WithTitle([], t) == head;
      assert WithTitle(s, t) == head + WithTitle(s[1..], t);
    }
  }
}

=== FILE: wrappers.dfy ===
/** Option and Result values, and the error kinds the card model raises. */
module Wrappers {

  /** A possibly absent value: Python's `None` or a present attribute. */
  datatype Option<+T> = None | Some(value: T)

  /** Either a value or the exception the source would raise instead. */
  datatype Result<+R> = Ok(value: R) | Err(error: Error)

  /** The exceptions of card.py, plus the crash a record-less card causes. */
  datatype Error =
    | UnrecognizedFormat   // CardBase given something that is not a mapping
    | MissingRecord        // a falsy element leaves a Card without a wrapped record
    | MissingAttribute     // a faux record has no title to sort or read by
    | InvalidSampleSize    // random.sample asked for a negative count or more cards than remain
    | NoIdentityFound      // a deck without an identity card
}
